=== FILE: README.md ===
# NICFI basemap exporter — a Dafny model of its export orchestration

The exporter takes a Google Cloud project, a NICFI region name, an area of
interest (AOI) and a date window. It resolves the region to a Planet NICFI
basemap collection and makes sure the project's `nicfi` collection exists.
Then it starts one Earth Engine export-to-asset task per image of the window
except the first.

The model replaces the Earth Engine services with one object,
`ExportNicfi.EarthEngine`, which has four parts:

- `assets`: the asset store, as the set of paths that exist.
- `catalog`: the catalog, as a function from a query (collection and date
  window) to the `system:index` values of the matching images, in catalog
  order.
- `backendError`: the export backend's answer to each task it is asked to
  create and start. `None` means the task is started. `Some(message)` means
  the backend raises an `EEException` with that message.
- `events`: one ordered log of what was done to the services. An entry is
  either an `earthengine create <kind> <path>` request to the provisioning
  tool or a task the backend started.

The three functions of the script that change these services are methods of
that class: `make_ee_container`, `export_img_to_asset` and `export_nicfi`.
The loop of `export_nicfi` is the method `SubmitImages`.
Each method is proved against a pure specification in its own module:

- `Regions`: the region whitelist and table, and ASCII lowercasing.
- `Naming`: container path, destination ids, task descriptions, the namespace
  test.
- `AssetStore`: the existence check and the provisioning request.
- `Submitter`: the checks of `export_img_to_asset` and the backend's verdict.
- `Orchestrator`: the submission loop and the tasks it is meant to start.

The quirks below are kept exactly as the code has them; the differences
the model does allow are listed under "## Left out". The first two quirks
look unintended.

- The region table maps `africa` to the americas collection.
- The loop runs over `range(1, n_images)`, so the first image of the window
  is never exported.
- The errors are the Python exceptions the code raises. An unknown region
  and a non-image input raise `ValueError`. A plain asset id that does not
  exist fails a Python `assert`, so it raises `AssertionError`. A task the
  backend refuses raises `EEException`, which ends the loop; the tasks
  started before it stay started.
- `check_exists` returns 0 for "exists" and 1 for "not found".
  `make_ee_container` tests that integer for truth, so it creates the
  container only when the result is 1.

## Model

| member | source | states |
|---|---|---|
| `Regions.LowerChar` | export_nicfi.py:17 | an upper-case ASCII letter becomes the matching lower-case letter; every other character is unchanged; the result is never upper case |
| `Regions.Lower` | export_nicfi.py:17 | the lowered name has the same length, lowers each character in place, contains no upper-case letter, and lowering it again changes nothing |
| `Regions.RegionMessage` | export_nicfi.py:19 | the unknown-region message is 64 characters of fixed text followed by exactly the lowered name |
| `Regions.ResolveRegion` | export_nicfi.py:11-24 | a name is accepted exactly when its lowered form is whitelisted; `asia` gives the asia collection and every other accepted name the americas collection; otherwise a `ValueError` carrying the whitelist and the lowered name |
| `Regions.WhitelistMatchesTable` | export_nicfi.py:11-14 | the whitelist and the table's keys are the same three names, all lower case, so the lookup after the whitelist test cannot miss |
| `Regions.EqualIgnoringCaseIffSameLower` | export_nicfi.py:17 | two names agree letter by letter up to case exactly when their lowered forms are equal |
| `Regions.ResolveIgnoresCase` | export_nicfi.py:17-19 | any two casings of one name resolve identically, errors included |
| `Regions.ResolveAcceptsExactlyTheWhitelist` | export_nicfi.py:11-24 | accepted iff some casing of americas/africa/asia; americas and africa resolve to the americas path, asia to the asia path |
| `Regions.InvalidRegionMessageListsAll` | export_nicfi.py:18-19 | the unknown-region message contains all three valid names and ends with the lowered input |
| `Naming.StartsWith` | export_nicfi.py:103 | `str.startswith`: true exactly when the string is the prefix followed by something |
| `Naming.IsNamespaced` | export_nicfi.py:103 | an id is namespaced exactly when it is `users/` or `projects/` followed by something |
| `Naming.ContainerPath` | export_nicfi.py:28 | the destination container is in the `projects/` namespace |
| `Naming.DestinationId` | export_nicfi.py:35 | the id `{collection}/{id}` is the container, one slash, then the image's index, and nothing else |
| `Naming.DestinationIsNamespaced` | export_nicfi.py:28-35 | every destination id under a `projects/` container starts with `projects/`, so it passes the submitter's namespace test |
| `Naming.DestinationIdInjective` | export_nicfi.py:35 | destination ids in one container are equal iff the image indices are |
| `Naming.DecimalString` | export_nicfi.py:34 | the rendering of the loop index is a non-empty string of decimal digits without a leading zero |
| `Naming.DecimalRoundTrip` | export_nicfi.py:34 | reading the rendered index back as a number gives the index |
| `Naming.DecimalStringInjective` | export_nicfi.py:34 | two indices render alike iff they are equal |
| `Naming.Description` | export_nicfi.py:34 | each description starts with `exportNICFI_image` and has something after it |
| `Naming.DescriptionReadsBack` | export_nicfi.py:34 | what follows `exportNICFI_image` is all digits and reads back as the loop index |
| `Naming.DescriptionInjective` | export_nicfi.py:34 | two descriptions are equal iff their loop indices are |
| `AssetStore.CheckExists` | export_nicfi.py:125-130 | the result is 0 or 1, and it is 0 exactly when the path is in the store |
| `AssetStore.CreateRequests` | export_nicfi.py:44-49 | at most one request, for the given kind and path, and none exactly when the path already exists |
| `AssetStore.ProvisionTwiceRequestsAtMostOnce` | export_nicfi.py:46-49 | once a path has been provisioned a second call requests nothing, so two calls request at most once |
| `Submitter.AssetPathMessage` | export_nicfi.py:106 | the assertion message is the asset id followed by ` not a valid asset path` |
| `Submitter.Submit` | export_nicfi.py:97-122 | a non-image raises `ValueError` with the fixed message `ImageTypeMessage`, whatever the asset id; for an image, a string id outside `users/` and `projects/` that is absent raises `AssertionError`; otherwise the backend decides: the call succeeds iff it accepts the task, which records the image, description, id and region, and once the checks pass a refusal raises exactly `EEException` with the backend's message |
| `Submitter.NamespacedIdSkipsExistenceCheck` | export_nicfi.py:102-104 | for a namespaced or non-string id the verdict does not depend on the store |
| `Orchestrator.NarrowAoi` | export_nicfi.py:21-22 | the narrowed AOI is always a geometry; a geometry is left unchanged, and a feature collection becomes the geometry of that collection |
| `Orchestrator.SubmitIndex` | export_nicfi.py:32-41 | one iteration: the task for index i (built by `TaskFor`, the arguments of the call at lines 32-38) is handed to `Submit`; a success is that task for image i with its description and id; from a `projects/` container it succeeds exactly when the backend accepts that task, and otherwise raises the backend's `EEException` |
| `Orchestrator.SubmitUpTo` | export_nicfi.py:31-41 | the loop over indices 1 .. k-1, stopping at the first raise: never more than k-1 tasks, and exactly k-1 when nothing raised |
| `Orchestrator.FailureEndsRun` | export_nicfi.py:31-41 | after a submission raises, later indices add nothing, and the tasks started before it remain |
| `Orchestrator.FailingStepEndsLoop` | export_nicfi.py:31-41 | a step that raises after a clean run is the outcome of the whole loop, with the tasks started before it |
| `Orchestrator.ExpectedTasks` | export_nicfi.py:31-35 | the reference task list has max(n-1, 0) entries |
| `Orchestrator.ExpectedTasksShape` | export_nicfi.py:31-35 | task j is image j+1 with description `exportNICFI_image{j+1}` and id `<container>/<index>`; with distinct ids image 0 is never exported |
| `Orchestrator.LoopSubmitsExpectedTasks` | export_nicfi.py:31-41 | from a `projects/` container, while the backend accepts the tasks, every step passes and the loop has started exactly the expected tasks so far, in catalog order |
| `Orchestrator.LoopSubmitsAllExpected` | export_nicfi.py:31-41 | when the backend accepts every expected task, the whole loop raises nothing and starts exactly the expected tasks |
| `Orchestrator.FirstRejectionEndsRun` | export_nicfi.py:31-41 | when the backend first refuses the task for index i, the loop ends with that `EEException`, the tasks for 1 .. i-1 stay started and no later image is submitted |
| `Orchestrator.SubmittedRegionsAreGeometries` | export_nicfi.py:21-22 | every submitted task gets a geometry region, and narrowing a second time changes nothing |
| `Orchestrator.ExpectedDestinationsUnderProject` | export_nicfi.py:28-35 | under the project's `nicfi` container, the destination of expected task j is `projects/<project>/assets/nicfi/` followed by the index of image j+1 |
| `Orchestrator.ExpectedDestinationsDistinct` | export_nicfi.py:33-35 | distinct catalog images give pairwise distinct destination ids and descriptions |
| `ExportNicfi.EarthEngine.MakeContainer` | export_nicfi.py:44-49 | the log grows by the request of `CreateRequests` on the old store (one exactly when the path was absent), and the path exists afterwards |
| `ExportNicfi.EarthEngine.ExportImageToAsset` | export_nicfi.py:97-122 | the outcome is the verdict of `Submit`; a raise logs nothing; a success logs exactly the one started task; the store is untouched |
| `ExportNicfi.EarthEngine.SubmitImages` | export_nicfi.py:31-41 | the loop's outcome and the tasks it logs, in order, are those of `SubmitUpTo` over the whole window |
| `ExportNicfi.EarthEngine.ExportNicfi` | export_nicfi.py:10-41 | an unknown region raises its `ValueError` and changes nothing; otherwise the log gains the container request (if the container was absent) and after it the tasks started by the loop, whose outcome, including a backend refusal partway, is that of `SubmitUpTo` over the catalog window of the resolved collection |
| `ExportNicfi.WindowOfThreeTasks` | export_nicfi.py:28-35 | with three images the expected tasks are `exportNICFI_image1` and `exportNICFI_image2`, for images 1 and 2, under `projects/<project>/assets/nicfi/` |
| `ExportNicfi.AmericasWindowOfThree` | export_nicfi.py:10-41 | `AMERICAS` resolves to the americas collection; with three images the backend accepts, the loop raises nothing and starts exactly those two tasks |

## Left out

- `main`, argument parsing and `_init` (session initialisation) are plumbing and are not modelled.
- The `earthengine create` subprocess is modelled as a request that always succeeds and creates the path. Its output is discarded by the code, so a failed creation is not modelled.
- `AssetStore.CheckExists`: only the "not found" exception is modelled. Any other Earth Engine error would propagate out of `check_exists`, and that case is not modelled.
- Catalog queries (`filterDate`, `size().getInfo()`, `toList`, `get`, `system:index`) are replaced by the `catalog` function. Failures of those remote calls are not modelled.
- AOI geometry is reduced to a type tag and the name of its origin. No geometry is computed.
- Export options passed through to the backend are not modelled: `scale=3`, `maxPixels=1e12` (a float), pyramiding policy, dimensions, CRS, CRS transform, extra keyword arguments.
- Dates are opaque strings inside a catalog query.
- The "Export Started" message printed after each submission is not modelled.
- Remote task execution, which is asynchronous, is not modelled. A task is recorded when it is started. Whether the backend accepts a task is given by `backendError`, not computed.
- `ExportNicfi.EarthEngine.ExportImageToAsset`: the backend's answer `backendError` is a fixed function of the task. So it cannot depend on the tasks already started (a queue quota, say), and two runs on one object get the same answers for the same tasks. Within one run nothing is lost, because its tasks are pairwise distinct: their descriptions differ (`Naming.DescriptionInjective`).
- `Submitter.Submit`: the defaults of `export_img_to_asset` are not modelled as defaults. The orchestrator always passes a description and a string id. A caller relying on `assetId=None` is covered by `NonString`. The default description `"myExportImageTask"` is never used by the orchestrator and has no counterpart in the model.
- `Regions.LowerChar`: lowers ASCII capitals only. Python's `str.lower` also lowers non-ASCII capitals (`É` to `é`), which this leaves unchanged.
- `Regions.Lower`: lowers ASCII capitals only, one character for one. Python's `str.lower` can also change non-ASCII characters and can lengthen the string (`İ`, U+0130, becomes `i` followed by the combining dot U+0307).
- `Regions.ResolveRegion`: uses the ASCII-only `Lower`, so for a name with non-ASCII capitals the text of the error message can differ from Python's. Which names are accepted is unaffected. Python lowers a non-ASCII character to non-ASCII characters, except `İ` (U+0130), which gives `i` plus a combining dot, and the KELVIN SIGN (U+212A), which gives `k`. The combining dot is not in any whitelisted name and neither is `k`, so no such name is accepted by Python, and none is accepted by the model.
- `Submitter.Submit`: the asset-id check is a Python `assert`, which disappears when Python runs with `-O`. The model always performs it.
- Arguments of other Python types are not modelled. The AOI is either a geometry or a feature collection. The image is either an Earth Engine image or some other object. The asset id is either a string or not a string.

=== FILE: assets.dfy ===
/**
 The asset store side of the exporter: the existence checker and the request
 the container provisioner sends, over a store given as the set of paths
 that exist in it.
 */
module AssetStore {
  import opened NicfiTypes

  /** `check_exists`: 0 when the asset is in the store, 1 when the lookup
      raises "not found". The Python truth value of the result is therefore
      "absent". */
  function CheckExists(store: set<string>, path: string): (r: int)
    ensures r == 0 || r == 1
    ensures r == 0 <==> path in store
  {
    if path in store then 0 else 1
  }

  /** The requests `make_ee_container` sends to the provisioning tool: one
      when the existence check reports the path absent, none otherwise. */
  function CreateRequests(store: set<string>, path: string, kind: ContainerKind): (r: seq<CreateRequest>)
    ensures |r| <= 1
    ensures r == [] <==> path in store
    ensures forall q :: q in r ==> q == CreateRequest(kind, path)
  {
    if CheckExists(store, path) != 0 then [CreateRequest(kind, path)] else []
  }

  /** Provisioning is idempotent: once the first call has created the path, a
      second call on it requests nothing, so two calls request at most once. */
  lemma ProvisionTwiceRequestsAtMostOnce(store: set<string>, path: string, kind: ContainerKind)
    ensures CreateRequests(store + {path}, path, kind) == []
    ensures |CreateRequests(store, path, kind) + CreateRequests(store + {path}, path, kind)| <= 1
  {
  }
}

=== FILE: export_nicfi.dfy ===
/**
 The exporter's functions over the Earth Engine services they drive. The
 services are one object: the asset store (the paths that exist), the
 catalog (the images of a collection within a date window, by
 `system:index`, in catalog order), the export backend's answer to each
 task it is asked to start, and one ordered log of what was done to the
 services: containers requested from the provisioning tool and tasks the
 backend started.
 */
module ExportNicfi {
  import opened NicfiTypes
  import opened Regions
  import opened Naming
  import opened AssetStore
  import opened Submitter
  import opened Orchestrator

  /** The log entries for a list of provisioning requests, in order. */
  function CreatedEvents(requests: seq<CreateRequest>): (es: seq<Event>)
    ensures |es| == |requests|
    ensures forall i :: 0 <= i < |es| ==> es[i] == Created(requests[i])
  {
    seq(|requests|, i requires 0 <= i < |requests| => Created(requests[i]))
  }

  /** The log entries for a list of started tasks, in order. */
  function StartedEvents(tasks: seq<Task>): (es: seq<Event>)
    ensures |es| == |tasks|
    ensures forall i :: 0 <= i < |es| ==> es[i] == Started(tasks[i])
  {
    seq(|tasks|, i requires 0 <= i < |tasks| => Started(tasks[i]))
  }

  /** Starting one more task appends one entry to the log. */
  lemma StartedEventsAppend(tasks: seq<Task>, t: Task)
    ensures StartedEvents(tasks + [t]) == StartedEvents(tasks) + [Started(t)]
  {
  }

  class EarthEngine {
    var assets: set<string>
    var events: seq<Event>
    const catalog: Query -> seq<string>
    const backendError: Task -> Option<string>

    constructor (assets: set<string>, catalog: Query -> seq<string>, backendError: Task -> Option<string>)
      ensures this.assets == assets && this.catalog == catalog && this.backendError == backendError
      ensures events == []
    {
      this.assets := assets;
      this.catalog := catalog;
      this.backendError := backendError;
      events := [];
    }

    /** `make_ee_container`: asks the provisioning tool to create `path` only
        when the existence check reports it absent; afterwards it exists. */
    method MakeContainer(path: string, kind: ContainerKind)
      modifies this`assets, this`events
      ensures events == old(events) + CreatedEvents(CreateRequests(old(assets), path, kind))
      ensures assets == old(assets) + {path}
    {
      if CheckExists(assets, path) != 0 {
        events := events + [Created(CreateRequest(kind, path))];
        assets := assets + {path};
      }
    }

    /** `export_img_to_asset`: runs the submitter's checks in order and, when
        they pass, asks the backend to create and start the task; the task is
        logged exactly when the backend accepts it, and when anything raises
        nothing is logged. */
    method ExportImageToAsset(image: Input, description: string, assetId: AssetIdArg, region: Aoi)
      returns (outcome: Outcome)
      modifies this`events
      ensures Submit(assets, backendError, image, description, assetId, region).Failure? ==>
        && outcome == Fail(Submit(assets, backendError, image, description, assetId, region).error)
        && events == old(events)
      ensures Submit(assets, backendError, image, description, assetId, region).Success? ==>
        && outcome == Pass
        && events == old(events) + [Started(Submit(assets, backendError, image, description, assetId, region).value)]
    {
      if !image.EeImage? {
        return Fail(ValueError(ImageTypeMessage));
      }
      if assetId.AssetPath? && !IsNamespaced(assetId.path) {
        if CheckExists(assets, assetId.path) != 0 {
          return Fail(AssertionError(AssetPathMessage(assetId.path)));
        }
      }
      var task := Task(image.systemIndex, description, assetId, region);
      match backendError(task)
      case Some(message) =>
        return Fail(EEException(message));
      case None =>
        events := events + [Started(task)];
        outcome := Pass;
    }

    /** `export_nicfi`: resolves the region (raising before anything else on
        an unknown one), narrows the AOI, queries the catalog, ensures the
        project's `nicfi` collection once, then submits images 1 .. n-1 in
        catalog order, stopping at the first submission that raises. The log
        gains the container request (if any) first and then the started
        tasks, exactly as the loop specification `SubmitUpTo` gives them. */
    method ExportNicfi(cloudProject: string, nicfiRegion: string, aoi: Aoi, start: string, end: string)
      returns (outcome: Outcome)
      modifies this`assets, this`events
      ensures ResolveRegion(nicfiRegion).Failure? ==>
        && outcome == Fail(ResolveRegion(nicfiRegion).error)
        && assets == old(assets) && events == old(events)
      ensures ResolveRegion(nicfiRegion).Success? ==>
        var ids := catalog(Query(ResolveRegion(nicfiRegion).value, start, end));
        var container := ContainerPath(cloudProject);
        var run := SubmitUpTo(old(assets) + {container}, backendError, container, ids, NarrowAoi(aoi), |ids|);
        && assets == old(assets) + {container}
        && outcome == run.outcome
        && events == old(events) + CreatedEvents(CreateRequests(old(assets), container, Collection))
                                 + StartedEvents(run.submitted)
    {
      var resolved := ResolveRegion(nicfiRegion);
      if resolved.Failure? {
        return Fail(resolved.error);
      }
      var region := NarrowAoi(aoi);
      var ids := catalog(Query(resolved.value, start, end));
      var container := ContainerPath(cloudProject);
      MakeContainer(container, Collection);
      outcome := SubmitImages(container, ids, region);
    }

    /** The loop of `export_nicfi` over `range(1, n_images)`: submits image i
        as `exportNICFI_image{i}` to `<container>/<system:index>`, in catalog
        order, and returns at the first submission that raises. */
    method SubmitImages(container: string, ids: seq<string>, region: Aoi) returns (outcome: Outcome)
      modifies this`events
      ensures outcome == SubmitUpTo(assets, backendError, container, ids, region, |ids|).outcome
      ensures events == old(events) + StartedEvents(SubmitUpTo(assets, backendError, container, ids, region, |ids|).submitted)
    {
      var nImages := |ids|;
      var i := 1;
      while i < nImages
        invariant 1 <= i && (i <= nImages || i == 1)
        invariant SubmitUpTo(assets, backendError, container, ids, region, i).outcome == Pass
        invariant events == old(events) + StartedEvents(SubmitUpTo(assets, backendError, container, ids, region, i).submitted)
      {
        ghost var done := SubmitUpTo(assets, backendError, container, ids, region, i).submitted;
        var id := ids[i];
        var desc := Description(i);
        var assetId := DestinationId(container, id);
        StepExtendsRun(assets, backendError, container, ids, region, i);
        var step := ExportImageToAsset(EeImage(id), desc, AssetPath(assetId), region);
        if step.Fail? {
          FailingStepEndsLoop(assets, backendError, container, ids, region, i);
          return step;
        }
        StartedEventsAppend(done, SubmitIndex(assets, backendError, container, ids, region, i).value);
        i := i + 1;
      }
      outcome := Pass;
    }
  }

  /** A window of three images under the project's `nicfi` container: the
      expected tasks are images 1 and 2, described as `exportNICFI_image1`
      and `exportNICFI_image2`. */
  lemma WindowOfThreeTasks(cloudProject: string, a: string, b: string, c: string, region: Aoi)
    ensures ExpectedTasks(ContainerPath(cloudProject), [a, b, c], region) == [
      Task(b, "exportNICFI_image1", AssetPath("projects/" + cloudProject + "/assets/nicfi/" + b), region),
      Task(c, "exportNICFI_image2", AssetPath("projects/" + cloudProject + "/assets/nicfi/" + c), region)]
  {
    var container := ContainerPath(cloudProject);
    var expected := ExpectedTasks(container, [a, b, c], region);
    assert expected[0].assetId.path == "projects/" + cloudProject + "/assets/nicfi/" + b;
    assert expected[1].assetId.path == "projects/" + cloudProject + "/assets/nicfi/" + c;
    assert expected[0].description == "exportNICFI_image1";
    assert expected[1].description == "exportNICFI_image2";
  }

  /** Region `AMERICAS` and a window of three images the backend accepts: the
      name resolves to the americas collection, and images 1 and 2 are
      exported as `exportNICFI_image1` and `exportNICFI_image2` under the
      project's `nicfi` container. */
  lemma AmericasWindowOfThree(store: set<string>, backendError: Task -> Option<string>,
                              cloudProject: string, a: string, b: string, c: string, aoi: Aoi)
    requires backendError(Task(b, "exportNICFI_image1", AssetPath("projects/" + cloudProject + "/assets/nicfi/" + b), NarrowAoi(aoi))).None?
    requires backendError(Task(c, "exportNICFI_image2", AssetPath("projects/" + cloudProject + "/assets/nicfi/" + c), NarrowAoi(aoi))).None?
    ensures ResolveRegion("AMERICAS") == Success(AmericasPath)
    ensures SubmitUpTo(store + {ContainerPath(cloudProject)}, backendError, ContainerPath(cloudProject),
                       [a, b, c], NarrowAoi(aoi), 3)
      == Run(Pass, [
           Task(b, "exportNICFI_image1", AssetPath("projects/" + cloudProject + "/assets/nicfi/" + b), NarrowAoi(aoi)),
           Task(c, "exportNICFI_image2", AssetPath("projects/" + cloudProject + "/assets/nicfi/" + c), NarrowAoi(aoi))])
  {
    assert Lower("AMERICAS") == "americas";
    WindowOfThreeTasks(cloudProject, a, b, c, NarrowAoi(aoi));
    LoopSubmitsAllExpected(store + {ContainerPath(cloudProject)}, backendError, ContainerPath(cloudProject), [a, b, c], NarrowAoi(aoi));
  }
}

=== FILE: naming.dfy ===
/**
 The names the exporter derives: the destination container of a cloud
 project, the destination id of each image, the task description of each
 loop index (Python's decimal rendering of an integer), and the namespace
 test the submitter applies to asset ids.
 */
module Naming {

  /** `s` begins with `prefix`, as Python's `str.startswith`. */
  predicate StartsWith(s: string, prefix: string): (b: bool)
    ensures b <==> |prefix| <= |s| && s == prefix + s[|prefix|..]
  {
    |prefix| <= |s| && s[..|prefix|] == prefix
  }

  /** An asset id already in the `users/` or `projects/` namespace; the
      submitter does not look such an id up in the asset store. */
  predicate IsNamespaced(assetId: string): (b: bool)
    ensures b <==> ((|assetId| >= 6 && assetId == "users/" + assetId[6..])
                    || (|assetId| >= 9 && assetId == "projects/" + assetId[9..]))
  {
    StartsWith(assetId, "users/") || StartsWith(assetId, "projects/")
  }

  /** The container every export goes into. */
  function ContainerPath(cloudProject: string): (p: string)
    ensures StartsWith(p, "projects/")
  {
    "projects/" + cloudProject + "/assets/nicfi"
  }

  /** The destination id of the image whose `system:index` is `index`. */
  function DestinationId(container: string, index: string): (d: string)
    ensures |d| == |container| + 1 + |index|
    ensures d[..|container|] == container && d[|container|] == '/' && d[|container| + 1..] == index
  {
    container + "/" + index
  }

  /** Destination ids under a `projects/` container are in the `projects/`
      namespace, so the submitter never consults the asset store for them. */
  lemma DestinationIsNamespaced(container: string, index: string)
    requires StartsWith(container, "projects/")
    ensures StartsWith(DestinationId(container, index), "projects/")
    ensures IsNamespaced(DestinationId(container, index))
  {
    var d := DestinationId(container, index);
    assert d == container + ("/" + index);
    assert d[..|"projects/"|] == container[..|"projects/"|];
  }

  /** Distinct images get distinct destination ids in one container. */
  lemma DestinationIdInjective(container: string, a: string, b: string)
    ensures DestinationId(container, a) == DestinationId(container, b) <==> a == b
  {
    var n := |container| + 1;
    if DestinationId(container, a) == DestinationId(container, b) {
      assert a == DestinationId(container, a)[n..];
      assert b == DestinationId(container, b)[n..];
    }
  }

  function DigitChar(d: nat): (c: char)
    requires d < 10
    ensures '0' <= c <= '9'
  {
    ('0' as int + d) as char
  }

  function DigitValue(c: char): (d: nat)
    requires '0' <= c <= '9'
    ensures d < 10
  {
    c as int - '0' as int
  }

  predicate AllDigits(s: string) {
    forall i :: 0 <= i < |s| ==> '0' <= s[i] <= '9'
  }

  /** Python's `str(n)` for a natural number: decimal digits, no leading
      zero except for 0 itself. */
  function DecimalString(n: nat): (s: string)
    ensures |s| >= 1 && AllDigits(s)
    ensures s[0] == '0' ==> n == 0
    decreases n
  {
    if n < 10 then [DigitChar(n)] else DecimalString(n / 10) + [DigitChar(n % 10)]
  }

  /** The number a string of decimal digits denotes. */
  function DecimalValue(s: string): nat
    requires AllDigits(s)
  {
    if s == [] then 0 else 10 * DecimalValue(s[..|s| - 1]) + DigitValue(s[|s| - 1])
  }

  lemma {:induction false} DecimalRoundTrip(n: nat)
    ensures DecimalValue(DecimalString(n)) == n
    decreases n
  {
    var s := DecimalString(n);
    if n >= 10 {
      DecimalRoundTrip(n / 10);
      assert s[..|s| - 1] == DecimalString(n / 10);
    }
  }

  lemma DecimalStringInjective(m: nat, n: nat)
    ensures DecimalString(m) == DecimalString(n) <==> m == n
  {
    DecimalRoundTrip(m);
    DecimalRoundTrip(n);
  }

  const DescriptionPrefix: string := "exportNICFI_image"

  /** The description of the task for loop index `i`: the fixed prefix, then
      the index in decimal. */
  function Description(i: nat): (d: string)
    ensures StartsWith(d, DescriptionPrefix) && |d| > |DescriptionPrefix|
  {
    DescriptionPrefix + DecimalString(i)
  }

  /** What follows the prefix of a description is all digits and reads back
      as the loop index. */
  lemma DescriptionReadsBack(i: nat)
    ensures AllDigits(Description(i)[|DescriptionPrefix|..])
    ensures DecimalValue(Description(i)[|DescriptionPrefix|..]) == i
  {
    assert Description(i)[|DescriptionPrefix|..] == DecimalString(i);
    DecimalRoundTrip(i);
  }

  /** Different loop indices give different task descriptions. */
  lemma DescriptionInjective(i: nat, j: nat)
    ensures Description(i) == Description(j) <==> i == j
  {
    var n := |DescriptionPrefix|;
    assert Description(i)[n..] == DecimalString(i);
    assert Description(j)[n..] == DecimalString(j);
    DecimalStringInjective(i, j);
  }
}

=== FILE: orchestrator.dfy ===
/**
 The pure specification of the orchestrator's submission loop: what the loop
 over `range(1, n_images)` submits when each step may raise, and the
 reference list of tasks it is meant to submit.
 */
module Orchestrator {
  import opened NicfiTypes
  import opened Naming
  import opened Submitter

  /** The AOI narrowing: a feature collection is replaced by its geometry,
      anything else is passed on unchanged. */
  function NarrowAoi(aoi: Aoi): (g: Aoi)
    ensures g.Geometry?
    ensures aoi.Geometry? ==> g == aoi
    ensures aoi.FeatureCollection? ==> g.origin == aoi.assetPath
  {
    match aoi
    case FeatureCollection(path) => Geometry(path)
    case Geometry(_) => aoi
  }

  /** The state of the loop after some iterations: the outcome so far and the
      tasks started so far. */
  datatype Run = Run(outcome: Outcome, submitted: seq<Task>)

  /** The task the loop builds for index `i`: image `i` of the window, the
      description for `i` and the destination id of that image. */
  function TaskFor(container: string, ids: seq<string>, region: Aoi, i: nat): Task
    requires i < |ids|
  {
    Task(ids[i], Description(i), AssetPath(DestinationId(container, ids[i])), region)
  }

  /** One iteration of the loop, for index `i`: the task for `i` handed to
      the submitter. From a `projects/` container the submitter's own checks
      always pass, so the step succeeds exactly when the backend accepts the
      task, and raises the backend's exception otherwise. */
  function SubmitIndex(store: set<string>, backendError: Task -> Option<string>, container: string,
                       ids: seq<string>, region: Aoi, i: nat): (r: Result<Task>)
    requires i < |ids|
    ensures r.Success? ==> r.value == TaskFor(container, ids, region, i)
    ensures StartsWith(container, "projects/") ==>
      && (r.Success? <==> backendError(TaskFor(container, ids, region, i)).None?)
      && (r.Failure? ==> r.error == EEException(backendError(TaskFor(container, ids, region, i)).value))
  {
    var r := Submit(store, backendError, EeImage(ids[i]), Description(i), AssetPath(DestinationId(container, ids[i])), region);
    if StartsWith(container, "projects/") then
      DestinationIsNamespaced(container, ids[i]);
      r
    else r
  }

  /** The loop after it has run indices 1 .. k-1: it stops at the first
      submission that raises, keeping what was submitted before it. */
  function SubmitUpTo(store: set<string>, backendError: Task -> Option<string>, container: string,
                      ids: seq<string>, region: Aoi, k: nat): (run: Run)
    requires k <= |ids| || k <= 1
    ensures run.outcome.Pass? ==> |run.submitted| == if k == 0 then 0 else k - 1
    ensures |run.submitted| <= if k == 0 then 0 else k - 1
    decreases k
  {
    if k <= 1 then Run(Pass, [])
    else
      var prev := SubmitUpTo(store, backendError, container, ids, region, k - 1);
      if prev.outcome.Fail? then prev
      else match SubmitIndex(store, backendError, container, ids, region, k - 1)
        case Failure(e) => Run(Fail(e), prev.submitted)
        case Success(t) => Run(Pass, prev.submitted + [t])
  }

  /** One more iteration after a run that has not raised: the step for index
      `i` is the submitter's verdict on the task for `i`, and the run grows by
      that task or ends with that exception. */
  lemma StepExtendsRun(store: set<string>, backendError: Task -> Option<string>, container: string,
                       ids: seq<string>, region: Aoi, i: nat)
    requires 1 <= i < |ids|
    requires SubmitUpTo(store, backendError, container, ids, region, i).outcome.Pass?
    ensures SubmitIndex(store, backendError, container, ids, region, i)
         == Submit(store, backendError, EeImage(ids[i]), Description(i), AssetPath(DestinationId(container, ids[i])), region)
    ensures SubmitUpTo(store, backendError, container, ids, region, i + 1) ==
      match SubmitIndex(store, backendError, container, ids, region, i)
      case Failure(e) => Run(Fail(e), SubmitUpTo(store, backendError, container, ids, region, i).submitted)
      case Success(t) => Run(Pass, SubmitUpTo(store, backendError, container, ids, region, i).submitted + [t])
  {
  }

  /** A step that raises ends the run: later indices change nothing, and
      the tasks started before the failure stay started. */
  lemma {:induction false} FailureEndsRun(store: set<string>, backendError: Task -> Option<string>,
                                          container: string, ids: seq<string>, region: Aoi, k: nat, m: nat)
    requires k <= m <= |ids|
    requires SubmitUpTo(store, backendError, container, ids, region, k).outcome.Fail?
    ensures SubmitUpTo(store, backendError, container, ids, region, m)
         == SubmitUpTo(store, backendError, container, ids, region, k)
    decreases m - k
  {
    if k < m {
      FailureEndsRun(store, backendError, container, ids, region, k, m - 1);
    }
  }

  /** A step that raises after a run that has not: the whole loop ends with
      that step's exception and the tasks started before it. */
  lemma FailingStepEndsLoop(store: set<string>, backendError: Task -> Option<string>, container: string,
                            ids: seq<string>, region: Aoi, i: nat)
    requires 1 <= i < |ids|
    requires SubmitUpTo(store, backendError, container, ids, region, i).outcome.Pass?
    requires SubmitIndex(store, backendError, container, ids, region, i).Failure?
    ensures SubmitUpTo(store, backendError, container, ids, region, |ids|) ==
      Run(Fail(SubmitIndex(store, backendError, container, ids, region, i).error),
          SubmitUpTo(store, backendError, container, ids, region, i).submitted)
  {
    StepExtendsRun(store, backendError, container, ids, region, i);
    FailureEndsRun(store, backendError, container, ids, region, i + 1, |ids|);
  }

  /** The tasks the orchestrator is meant to start for a window of images
      `ids` in catalog order: one for every index from 1 to |ids|-1, the first
      image being skipped, so max(n-1, 0) of them. */
  function ExpectedTasks(container: string, ids: seq<string>, region: Aoi): (ts: seq<Task>)
    ensures |ts| == if |ids| == 0 then 0 else |ids| - 1
  {
    if |ids| <= 1 then []
    else seq(|ids| - 1, j requires 0 <= j < |ids| - 1 => TaskFor(container, ids, region, j + 1))
  }

  /** The j-th expected task is for image j+1, with description
      `exportNICFI_image{j+1}` and id `<container>/<index>`; with distinct
      catalog ids image 0 is never exported. */
  lemma ExpectedTasksShape(container: string, ids: seq<string>, region: Aoi)
    ensures forall j :: 0 <= j < |ExpectedTasks(container, ids, region)| ==>
      && ExpectedTasks(container, ids, region)[j].image == ids[j + 1]
      && ExpectedTasks(container, ids, region)[j].description == Description(j + 1)
      && ExpectedTasks(container, ids, region)[j].assetId == AssetPath(DestinationId(container, ids[j + 1]))
      && ExpectedTasks(container, ids, region)[j].region == region
    ensures (forall a, b :: 0 <= a < b < |ids| ==> ids[a] != ids[b]) ==>
      forall t :: t in ExpectedTasks(container, ids, region) ==> t.image != ids[0]
  {
  }

  /** Under the project's `nicfi` container, the destination of expected task
      j is `projects/<project>/assets/nicfi/` followed by the `system:index`
      of image j+1. */
  lemma ExpectedDestinationsUnderProject(cloudProject: string, ids: seq<string>, region: Aoi)
    ensures forall j :: 0 <= j < |ExpectedTasks(ContainerPath(cloudProject), ids, region)| ==>
      && ExpectedTasks(ContainerPath(cloudProject), ids, region)[j].assetId.AssetPath?
      && ExpectedTasks(ContainerPath(cloudProject), ids, region)[j].assetId.path
         == "projects/" + cloudProject + "/assets/nicfi/" + ids[j + 1]
  {
    var ts := ExpectedTasks(ContainerPath(cloudProject), ids, region);
    forall j | 0 <= j < |ts|
      ensures ts[j].assetId.AssetPath? && ts[j].assetId.path == "projects/" + cloudProject + "/assets/nicfi/" + ids[j + 1]
    {
      assert ts[j] == TaskFor(ContainerPath(cloudProject), ids, region, j + 1);
    }
  }

  /** The backend accepts every task in `ts`. */
  predicate AllAccepted(backendError: Task -> Option<string>, ts: seq<Task>) {
    forall j :: 0 <= j < |ts| ==> backendError(ts[j]).None?
  }

  /** Run from a `projects/` container the submitter's checks never raise: as
      long as the backend accepts the tasks, the loop submits exactly the
      expected tasks, in catalog order. */
  lemma {:induction false} LoopSubmitsExpectedTasks(store: set<string>, backendError: Task -> Option<string>,
                                                    container: string, ids: seq<string>, region: Aoi, k: nat)
    requires StartsWith(container, "projects/")
    requires k <= |ids| || k <= 1
    requires AllAccepted(backendError, ExpectedTasks(container, ids, region)[..if k == 0 then 0 else k - 1])
    ensures SubmitUpTo(store, backendError, container, ids, region, k) ==
      Run(Pass, ExpectedTasks(container, ids, region)[..if k == 0 then 0 else k - 1])
    decreases k
  {
    if k > 1 {
      var expected := ExpectedTasks(container, ids, region);
      var done, task := expected[..k - 2], expected[k - 2];
      assert expected[..k - 1] == done + [task];
      assert AllAccepted(backendError, done) by {
        forall j | 0 <= j < |done| ensures backendError(done[j]).None? {
          assert done[j] == expected[..k - 1][j];
        }
      }
      LoopSubmitsExpectedTasks(store, backendError, container, ids, region, k - 1);
      assert task == TaskFor(container, ids, region, k - 1);
      assert backendError(expected[..k - 1][k - 2]).None?;
      assert SubmitIndex(store, backendError, container, ids, region, k - 1) == Success(task);
    }
  }

  /** The whole loop: when the backend accepts every expected task, no
      submission raises and exactly the expected tasks are started. */
  lemma LoopSubmitsAllExpected(store: set<string>, backendError: Task -> Option<string>,
                               container: string, ids: seq<string>, region: Aoi)
    requires StartsWith(container, "projects/")
    requires AllAccepted(backendError, ExpectedTasks(container, ids, region))
    ensures SubmitUpTo(store, backendError, container, ids, region, |ids|) == Run(Pass, ExpectedTasks(container, ids, region))
  {
    var expected := ExpectedTasks(container, ids, region);
    assert expected[..if |ids| == 0 then 0 else |ids| - 1] == expected;
    LoopSubmitsExpectedTasks(store, backendError, container, ids, region, |ids|);
  }

  /** When the backend refuses the task for index i after accepting every
      earlier one, the run ends there with the backend's exception: the tasks
      for indices 1 .. i-1 stay started and no later index is tried. */
  lemma FirstRejectionEndsRun(store: set<string>, backendError: Task -> Option<string>,
                              container: string, ids: seq<string>, region: Aoi, i: nat)
    requires StartsWith(container, "projects/")
    requires 1 <= i < |ids|
    requires AllAccepted(backendError, ExpectedTasks(container, ids, region)[..i - 1])
    requires backendError(TaskFor(container, ids, region, i)).Some?
    ensures SubmitUpTo(store, backendError, container, ids, region, |ids|) ==
      Run(Fail(EEException(backendError(TaskFor(container, ids, region, i)).value)),
          ExpectedTasks(container, ids, region)[..i - 1])
  {
    LoopSubmitsExpectedTasks(store, backendError, container, ids, region, i);
    FailureEndsRun(store, backendError, container, ids, region, i + 1, |ids|);
  }

  /** Every submitted task carries a geometry-typed region: a feature
      collection AOI has been narrowed before any submission. */
  lemma SubmittedRegionsAreGeometries(container: string, ids: seq<string>, aoi: Aoi)
    ensures forall t :: t in ExpectedTasks(container, ids, NarrowAoi(aoi)) ==> t.region.Geometry?
    ensures NarrowAoi(NarrowAoi(aoi)) == NarrowAoi(aoi)
  {
  }

  /** Distinct catalog images get distinct destination ids and descriptions. */
  lemma ExpectedDestinationsDistinct(container: string, ids: seq<string>, region: Aoi)
    requires forall a, b :: 0 <= a < b < |ids| ==> ids[a] != ids[b]
    ensures forall a, b :: 0 <= a < b < |ExpectedTasks(container, ids, region)| ==>
      ExpectedTasks(container, ids, region)[a].assetId != ExpectedTasks(container, ids, region)[b].assetId
      && ExpectedTasks(container, ids, region)[a].description != ExpectedTasks(container, ids, region)[b].description
  {
    var ts := ExpectedTasks(container, ids, region);
    forall a, b | 0 <= a < b < |ts|
      ensures ts[a].assetId != ts[b].assetId && ts[a].description != ts[b].description
    {
      DestinationIdInjective(container, ids[a + 1], ids[b + 1]);
      DescriptionInjective(a + 1, b + 1);
    }
  }
}

=== FILE: regions.dfy ===
/**
 The region resolver: a NICFI region name, in any letter case, is checked
 against a fixed whitelist and looked up in a fixed table of basemap
 collections. The table is kept as the script has it, so `africa` resolves
 to the americas collection.
 */
module Regions {
  import opened NicfiTypes

  const AmericasPath: string := "projects/planet-nicfi/assets/basemaps/americas"
  const AsiaPath: string := "projects/planet-nicfi/assets/basemaps/asia"

  const ValidRegions: seq<string> := ["americas", "africa", "asia"]

  const RegionTable: map<string, string> :=
    map["americas" := AmericasPath, "africa" := AmericasPath, "asia" := AsiaPath]

  /** Python's `str.lower` on one character, restricted to ASCII letters:
      an upper-case letter becomes its lower-case partner, anything else is
      kept. */
  function LowerChar(c: char): (r: char)
    ensures !('A' <= r <= 'Z')
    ensures 'A' <= c <= 'Z' ==> 'a' <= r <= 'z' && r as int - c as int == 'a' as int - 'A' as int
    ensures !('A' <= c <= 'Z') ==> r == c
  {
    if 'A' <= c <= 'Z' then (c as int + 32) as char else c
  }

  /** Python's `str.lower` on a name: same length, no upper-case letter left,
      and lowering again changes nothing. */
  function Lower(s: string): (r: string)
    ensures |r| == |s|
    ensures forall i :: 0 <= i < |r| ==> !('A' <= r[i] <= 'Z') && r[i] == LowerChar(s[i])
    ensures forall i :: 0 <= i < |r| ==> LowerChar(r[i]) == r[i]
  {
    seq(|s|, i requires 0 <= i < |s| => LowerChar(s[i]))
  }

  /** `s` and `t` spell the same word, letter case aside. */
  predicate EqualIgnoringCase(s: string, t: string) {
    |s| == |t| && forall i :: 0 <= i < |s| ==> LowerChar(s[i]) == LowerChar(t[i])
  }

  /** The text of the error raised for a region outside the whitelist: the
      Python rendering of the whitelist followed by the lowered name. */
  function RegionMessage(lowered: string): (m: string)
    ensures |m| == 64 + |lowered| && m[64..] == lowered
  {
    "nicfi_region must be one of ['" + "americas" + "', '" + "africa" + "', '" + "asia"
      + "']: got " + lowered
  }

  function ResolveRegion(name: string): (r: Result<string>)
    ensures r.Success? <==> Lower(name) in ValidRegions
    ensures r.Success? ==> r.value == if Lower(name) == "asia" then AsiaPath else AmericasPath
    ensures r.Failure? ==> r.error == ValueError(RegionMessage(Lower(name)))
  {
    var lowered := Lower(name);
    if lowered !in ValidRegions then
      Failure(ValueError(RegionMessage(lowered)))
    else
      Success(RegionTable[lowered])
  }

  /** Every whitelisted name is a key of the table and already lower case. */
  lemma WhitelistMatchesTable()
    ensures forall v :: v in ValidRegions <==> v in RegionTable
    ensures forall v :: v in ValidRegions ==> Lower(v) == v
  {
    assert Lower("americas") == "americas";
    assert Lower("africa") == "africa";
    assert Lower("asia") == "asia";
  }

  lemma {:induction false} EqualIgnoringCaseIffSameLower(s: string, t: string)
    ensures EqualIgnoringCase(s, t) <==> Lower(s) == Lower(t)
  {
    if Lower(s) == Lower(t) {
      assert |s| == |Lower(s)| == |Lower(t)| == |t|;
      forall i | 0 <= i < |s| ensures LowerChar(s[i]) == LowerChar(t[i]) {
        assert Lower(s)[i] == Lower(t)[i];
      }
    }
  }

  /** Resolution is insensitive to letter case, on success and on failure. */
  lemma ResolveIgnoresCase(s: string, t: string)
    requires EqualIgnoringCase(s, t)
    ensures ResolveRegion(s) == ResolveRegion(t)
  {
    EqualIgnoringCaseIffSameLower(s, t);
  }

  /** A name is accepted exactly when it is some casing of a whitelisted
      region; the literal table then sends americas and africa to the
      americas collection and asia to the asia collection. */
  lemma ResolveAcceptsExactlyTheWhitelist(name: string)
    ensures ResolveRegion(name).Success? <==>
      exists v :: v in ValidRegions && EqualIgnoringCase(name, v)
    ensures EqualIgnoringCase(name, "americas") ==> ResolveRegion(name) == Success(AmericasPath)
    ensures EqualIgnoringCase(name, "africa") ==> ResolveRegion(name) == Success(AmericasPath)
    ensures EqualIgnoringCase(name, "asia") ==> ResolveRegion(name) == Success(AsiaPath)
  {
    WhitelistMatchesTable();
    forall v | v in ValidRegions
      ensures EqualIgnoringCase(name, v) <==> Lower(name) == v
    {
      EqualIgnoringCaseIffSameLower(name, v);
    }
    if ResolveRegion(name).Success? {
      assert EqualIgnoringCase(name, Lower(name));
    }
  }

  /** `s` occurs in `text` starting at position `k`. */
  predicate OccursAt(text: string, s: string, k: int) {
    0 <= k <= |text| - |s| && text[k..k + |s|] == s
  }

  /** `s` occurs in `text` at some position. */
  ghost predicate Contains(text: string, s: string) {
    exists k :: OccursAt(text, s, k)
  }

  /** The error for an unknown region names all three valid regions and
      ends with the name it was given, lowered. */
  lemma InvalidRegionMessageListsAll(name: string)
    requires ResolveRegion(name).Failure?
    ensures Contains(ResolveRegion(name).error.message, "americas")
    ensures Contains(ResolveRegion(name).error.message, "africa")
    ensures Contains(ResolveRegion(name).error.message, "asia")
    ensures ResolveRegion(name).error.message[|RegionMessage("")|..] == Lower(name)
  {
    var m := ResolveRegion(name).error.message;
    var p0 := "nicfi_region must be one of ['";
    var p1 := p0 + "americas" + "', '";
    var p2 := p1 + "africa" + "', '";
    var rest := "']: got " + Lower(name);
    assert m == p0 + ("americas" + ("', '" + ("africa" + ("', '" + ("asia" + rest)))));
    assert |p0| == 30 && |p1| == 42 && |p2| == 52;
    assert OccursAt(m, "americas", 30);
    assert OccursAt(m, "africa", 42);
    assert OccursAt(m, "asia", 52);
  }
}

=== FILE: submitter.dfy ===
/**
 The pure specification of `export_img_to_asset`: its checks, in the order
 the script runs them, and the backend's answer to creating and starting the
 task.
 */
module Submitter {
  import opened NicfiTypes
  import opened Naming
  import opened AssetStore

  const ImageTypeMessage: string := "Input image must be an instance of ee.Image"

  /** The text of the assertion raised for a plain asset id that does not
      exist: the id, then the fixed complaint. */
  function AssetPathMessage(assetId: string): (m: string)
    ensures StartsWith(m, assetId)
    ensures m[|assetId|..] == " not a valid asset path"
  {
    assetId + " not a valid asset path"
  }

  /** `export_img_to_asset` without its side effect: the task it starts, or
      the exception raised. The image type is checked first; then a string
      asset id outside the `users/` and `projects/` namespaces must already
      exist (an asset id that is not a string is not checked); only then is
      the backend asked to create and start the task, which it may refuse
      (`backendError` gives its answer for each task). */
  function Submit(store: set<string>, backendError: Task -> Option<string>, image: Input,
                  description: string, assetId: AssetIdArg, region: Aoi): (r: Result<Task>)
    ensures !image.EeImage? ==> r == Failure(ValueError(ImageTypeMessage))
    ensures image.EeImage? && assetId.AssetPath? && !IsNamespaced(assetId.path) && assetId.path !in store
      ==> r == Failure(AssertionError(AssetPathMessage(assetId.path)))
    ensures r.Success? <==>
      && image.EeImage?
      && (assetId.AssetPath? && !IsNamespaced(assetId.path) ==> assetId.path in store)
      && backendError(Task(image.systemIndex, description, assetId, region)).None?
    ensures r.Success? ==> r.value == Task(image.systemIndex, description, assetId, region)
    ensures r.Failure? && r.error.EEException? ==>
      backendError(Task(image.systemIndex, description, assetId, region)) == Some(r.error.message)
    ensures && image.EeImage?
            && (assetId.AssetPath? && !IsNamespaced(assetId.path) ==> assetId.path in store)
            && backendError(Task(image.systemIndex, description, assetId, region)).Some?
      ==> r == Failure(EEException(backendError(Task(image.systemIndex, description, assetId, region)).value))
  {
    if !image.EeImage? then
      Failure(ValueError(ImageTypeMessage))
    else if assetId.AssetPath? && !IsNamespaced(assetId.path) && CheckExists(store, assetId.path) != 0 then
      Failure(AssertionError(AssetPathMessage(assetId.path)))
    else
      var task := Task(image.systemIndex, description, assetId, region);
      match backendError(task)
      case Some(message) => Failure(EEException(message))
      case None => Success(task)
  }

  /** For a namespaced or non-string asset id the store is never consulted:
      the verdict is the same whatever exists. */
  lemma NamespacedIdSkipsExistenceCheck(s1: set<string>, s2: set<string>, backendError: Task -> Option<string>,
                                        image: Input, description: string, assetId: AssetIdArg, region: Aoi)
    requires assetId.NonString? || IsNamespaced(assetId.path)
    ensures Submit(s1, backendError, image, description, assetId, region)
         == Submit(s2, backendError, image, description, assetId, region)
  {
  }
}

=== FILE: types.dfy ===
/**
 The values exchanged between the exporter and the Earth Engine services it
 drives: errors the exporter raises, the objects it passes to the export
 backend, the requests it makes of the provisioning tool.
 */
module NicfiTypes {

  /** The exceptions the exporter raises, named after the Python exception
      kinds the script uses, each with its message; `EEException` is what
      the export backend raises when it refuses to create or start a task. */
  datatype Error =
    | ValueError(message: string)
    | AssertionError(message: string)
    | EEException(message: string)

  datatype Option<+T> = None | Some(value: T)

  /** Whether a step finished normally or raised. */
  datatype Outcome = Pass | Fail(error: Error)

  /** A value or the exception raised while computing it. */
  datatype Result<+T> = Success(value: T) | Failure(error: Error)

  /** What is handed to the submitter as `image`: an Earth Engine image, known
      by its `system:index` property, or any other object. */
  datatype Input = EeImage(systemIndex: string) | OtherObject

  /** The submitter's `assetId` argument: a Python string, or anything that is
      not a string (`None` by default). */
  datatype AssetIdArg = AssetPath(path: string) | NonString

  /** An area of interest: a geometry (named here by what it was taken from)
      or a feature collection stored at an asset path. */
  datatype Aoi = Geometry(origin: string) | FeatureCollection(assetPath: string)

  /** An export task as the backend records it once it has been started. */
  datatype Task = Task(image: string, description: string, assetId: AssetIdArg, region: Aoi)

  /** The two kinds of container the `earthengine create` tool makes. */
  datatype ContainerKind = Folder | Collection

  /** One `earthengine create <kind> <path>` invocation. */
  datatype CreateRequest = CreateRequest(kind: ContainerKind, path: string)

  /** One observable effect on the services, in the order it happened: a
      request to the provisioning tool, or a task the backend started. */
  datatype Event = Created(request: CreateRequest) | Started(task: Task)

  /** A catalog query: a source collection filtered to a date window. The
      dates are opaque strings passed through unchanged. */
  datatype Query = Query(collection: string, start: string, end: string)
}
